=== FILE: README.md ===
# Conversation webhook: a verified model

This project models the core of a small Django service that tracks
conversations and their messages from webhook events. It covers:

- The webhook endpoint (`WebhookView.post`). It applies one event to the
  store: `NEW_CONVERSATION`, `NEW_MESSAGE` or `CLOSE_CONVERSATION`.
- The two tables it writes: `Conversation` and `Message`.
- The detail endpoint (`ConversationDetailView.get`). It reads one
  conversation back with its messages.

## Layout

- `wrappers.dfy` (module `Wrappers`): `Option` and `Result`.
- `models.dfy` (module `Models`) models `realmate_challenge/models.py`:
  - The `Status` and `Direction` enums, with OPEN as the default status.
  - The `Conversation` and `Message` records.
  - `Tables`, a snapshot of both tables keyed by primary key, plus a logical
    clock that the automatic `created_at` and `updated_at` fields read.
  - `WellFormed`, the table invariant: ids are unique per table, every
    message's foreign key names a stored conversation, and
    `created_at <= updated_at < clock`.
  - One pure function per write the tables support. Each states what it
    changes and that it keeps `WellFormed`.
  - The `Store` class: the live tables as `map` fields, whose methods
    perform the same writes in place. Each write method is proved equal to
    its pure function; `GetConversation` is the lookup.
- `views.dfy` (module `Views`) models `realmate_challenge/views.py`:
  - `Event`: the JSON body, where every key may be missing.
  - `ErrorKind`: one constructor per way a call fails.
  - `Apply`: the transition one event makes.
  - `Post`: performs that transition on a `Store`, and is proved to agree
    with `Apply`.
  - `ReadConversation`: the read projection.
- `lifecycle.dfy` (module `Lifecycle`):
  - Lemmas about single events: each outcome, and the order of the checks.
  - `Run`, which processes a sequence of events, with induction lemmas
    about whole runs.
  - Three end-to-end scenarios.

Ids (UUIDs) and timestamps (ISO-8601) are opaque `string`s that the model
never inspects. `data` is a `map<string, string>` and each top-level key of
the event is an `Option`, so a missing key can be seen.

The model follows the code, which behaves differently from what one might
expect in these places:

- A duplicate message id does not produce a separate "duplicate id" error.
  `Message.save` runs `full_clean`, whose uniqueness check refuses the
  message first, so the result is `Rejected({MessageIdTaken})`.
- A `direction` outside SENT/RECEIVED is also refused by `full_clean`
  (`Rejected({DirectionNotAChoice})`), not reported as a payload error. So
  is an empty `content` (`ContentBlank`), because the text field does not
  allow blank values.
- `full_clean` collects every violation, so `Rejected` carries a set.
- No `Rejected` outcome reaches the client as a 400. `full_clean` raises its
  `ValidationError` from a dict of field errors, and such an error has no
  `message` attribute. The `except ValidationError` clause reads `e.message`,
  raises in turn, and the request ends in a server error (500). Nothing has
  been written by then, because validation runs before the insert. See
  "## Findings".
- A missing conversation is `NotFound`. The lookup raises a 404 that the
  handler's `except` clauses do not catch.
- `NEW_CONVERSATION` and `CLOSE_CONVERSATION` never read the event's
  `timestamp`, so it may be missing for them.
- `Message.clean` checks the status of the conversation instance that the
  caller holds. `SaveMessageRow` therefore takes that instance as `owner`.
  The foreign-key check looks in the table.
- The read path imposes no order on messages, so the messages are a set.

## Model

| member | source | states |
|---|---|---|
| Models.ParseDirection | realmate_challenge/models.py:38-45 | accepts exactly the names of the two direction choices and inverts `DirectionName` |
| Models.CreateConversationRow | realmate_challenge/models.py:14-22 | fails with an integrity error exactly when the id is taken; otherwise adds exactly one row with that id, status OPEN and `created_at == updated_at` (one logical-clock reading; see Left out), leaves other rows and messages alone, advances the clock, and keeps the table invariant |
| Models.FullClean | realmate_challenge/models.py:49-55 | full validation finds no violation if and only if all of these hold: the owner is stored and OPEN, the direction is a choice, the content is not blank, and the id is unused. Each violation is reported exactly when its own condition holds: `DirectionNotAChoice` for a direction outside the choices, `ContentBlank` for empty content, `ConversationMissing` for an owner not in the table, `ConversationIsClosed` for a CLOSED owner instance, `MessageIdTaken` for a used id. So all violations are collected together. `SaveMessageRow` refuses exactly when this set is non-empty |
| Models.SaveMessageRow | realmate_challenge/models.py:43-56 | the save succeeds if and only if all of these hold: the owner is stored and OPEN, the direction is a choice, the content is not blank, and the id is unused. A CLOSED owner is always refused, whatever the caller checked. Every refusal is a non-empty set of violations. On success exactly one message is added, linked to the owner, and the invariant is kept |
| Models.SaveConversationRow | realmate_challenge/models.py:20-22 | saving a stored conversation writes its status, keeps `created_at`, strictly advances `updated_at` (a logical-clock property; see Left out), changes no other row or message, and keeps the invariant |
| Models.DeleteConversationRow | realmate_challenge/models.py:44 | deleting a conversation removes exactly that row and, by cascade, all and only its messages, and keeps the invariant (every remaining message still has its conversation) |
| Models.Store.GetConversation | realmate_challenge/views.py:56 | the lookup finds a conversation if and only if its id is stored, and returns that row |
| Models.Store.CreateConversation | realmate_challenge/views.py:54 | the in-place insert equals `CreateConversationRow`; a refused insert changes nothing |
| Models.Store.SaveMessage | realmate_challenge/models.py:53-56 | the in-place save runs full validation before writing and equals `SaveMessageRow`; a refused save changes nothing |
| Models.Store.SaveConversation | realmate_challenge/views.py:68-69 | the in-place update equals `SaveConversationRow` |
| Models.Store.DeleteConversation | realmate_challenge/models.py:44 | the in-place cascading delete equals `DeleteConversationRow` |
| Views.ErrorOf | realmate_challenge/views.py:73-76 | the handler's `except` clauses: an integrity error, and only that, becomes the duplicate-id error; a validation error, and only that, becomes a rejection carrying the same violations (used by `NewConversationDuplicate` and `NewMessageValidated`) |
| Views.StatusCodeAsWritten | realmate_challenge/views.py:58-78 | the status codes as the handler is written: 200 exactly on success, 404 exactly for the uncaught not-found, 500 exactly for a rejection (reading `e.message` fails inside the `except` clause), and 400 for every other failure. `Lifecycle.BadDirectionIsServerErrorAsWritten` exhibits the 500 on a concrete input |
| Views.Apply | realmate_challenge/views.py:51-78 | an event that fails changes nothing. No event removes a conversation or a message, alters a stored message, changes `created_at`, or turns CLOSED back to OPEN. Every new message belongs to a conversation that was OPEN. The table invariant is kept |
| Views.Post | realmate_challenge/views.py:41-78 | the handler, run on the live tables, returns the response `Apply` gives and leaves the tables `Apply` gives |
| Views.ReadConversation | realmate_challenge/views.py:104-110 | found if and only if the conversation exists. Returns its id, its current status, and exactly the messages whose foreign key is that id |
| Lifecycle.Run | realmate_challenge/models.py:19-44 | any sequence of events keeps the table invariant: unique ids per table, every message's conversation exists, and ordered timestamps |
| Lifecycle.TypeErrors | realmate_challenge/views.py:70-78 | a missing `type` gives the invalid-payload error and an unknown `type` gives the unknown-event error, both with no change |
| Lifecycle.NewConversationCreates | realmate_challenge/views.py:53-54 | NEW_CONVERSATION with an unused id succeeds and adds exactly one OPEN conversation with no messages. Reading it back gives id, "OPEN" and an empty list |
| Lifecycle.NewConversationDuplicate | realmate_challenge/views.py:75-76 | NEW_CONVERSATION with a taken id gives the duplicate-id error with no change; exactly one conversation has that id |
| Lifecycle.NewConversationMissingId | realmate_challenge/views.py:77-78 | NEW_CONVERSATION without `data.id` gives the invalid-payload error with no change |
| Lifecycle.NewMessageMissingConversationId | realmate_challenge/views.py:56 | NEW_MESSAGE without `conversation_id` gives the invalid-payload error, whatever else is missing |
| Lifecycle.NewMessageNotFound | realmate_challenge/views.py:56 | NEW_MESSAGE naming an absent conversation gives not-found with no change, whatever other keys are missing |
| Lifecycle.NewMessageClosed | realmate_challenge/views.py:57-58 | NEW_MESSAGE to a CLOSED conversation gives the closed-conversation error with no change, whatever other keys are missing |
| Lifecycle.NewMessageMissingField | realmate_challenge/views.py:59-65 | NEW_MESSAGE to an OPEN conversation that lacks `id`, `direction`, `content` or the event timestamp gives the invalid-payload error with no change |
| Lifecycle.NewMessageValidated | realmate_challenge/models.py:49-56 | when every key is present, NEW_MESSAGE succeeds if and only if the direction is a choice, the content is not blank and the id is unused. A bad direction or a taken id is reported as that violation |
| Lifecycle.NewMessageAppends | realmate_challenge/views.py:59-65 | a successful NEW_MESSAGE adds exactly one message and changes nothing else. The message has `id`, `direction` and `content` from `data`, the event's top-level timestamp, and the looked-up conversation. The conversation's read view gains exactly that message |
| Lifecycle.CloseMissingId | realmate_challenge/views.py:67 | CLOSE_CONVERSATION without `data.id` gives the invalid-payload error with no change |
| Lifecycle.CloseNotFound | realmate_challenge/views.py:67 | CLOSE_CONVERSATION naming an absent conversation gives not-found with no change |
| Lifecycle.CloseExisting | realmate_challenge/views.py:66-69 | closing an existing conversation always succeeds, whatever its status. The status becomes CLOSED, `updated_at` is refreshed (strictly, on the logical clock), `created_at` is kept, and no other row or message changes |
| Lifecycle.CloseIdempotent | realmate_challenge/views.py:66-69 | closing twice succeeds both times; the status stays CLOSED and the messages are untouched |
| Lifecycle.RunNeverReopens | realmate_challenge/views.py:53-69 | across any sequence of events, a conversation is never removed, its `created_at` never changes, and once CLOSED it stays CLOSED |
| Lifecycle.RunKeepsMessages | realmate_challenge/views.py:53-69 | across any sequence of events, a stored message is never removed or altered |
| Lifecycle.RunClosedGetsNoMessages | realmate_challenge/views.py:57-58 | across any sequence of events, a CLOSED conversation gains no message, however long ago it was closed |
| Views.StatusCode | realmate_challenge/views.py:22-23 | the intended mapping: 200 exactly on success, 404 exactly for a missing conversation, 400 exactly for every other failure |
| Lifecycle.BadDirectionIsServerErrorAsWritten | realmate_challenge/views.py:73-74 | a NEW_MESSAGE to an OPEN conversation with direction "INBOUND" writes nothing. As written it is answered with 500; under the intended mapping, with 400 |
| Lifecycle.EveryFailureIsClientError | realmate_challenge/views.py:22-23 | under the intended mapping every event is answered with 200, 400 or 404, and only a 200 comes with a change to the tables |
| Lifecycle.CreateMessageReadRoundTrip | realmate_challenge/views.py:104-110 | NEW_CONVERSATION(A) then NEW_MESSAGE(B in A) both succeed. Reading A gives "OPEN" and exactly one message, carrying B's id, direction string, content and timestamp |
| Lifecycle.CloseThenMessageRejected | realmate_challenge/views.py:57-58 | NEW_CONVERSATION(A), CLOSE_CONVERSATION(A), NEW_MESSAGE(in A): the message is refused as closed, and reading A gives "CLOSED" with no messages |
| Lifecycle.DuplicateCreateKeepsOne | realmate_challenge/models.py:19 | creating A twice: the second gives the duplicate-id error, leaves the tables as the first left them, and exactly one conversation has id A |

## Findings

| source | as written | input that shows it | evidently intended | confidence | as-written member | corrected member |
|---|---|---|---|---|---|---|
| realmate_challenge/views.py:73-74 | the `except ValidationError` clause answers with `e.message`, but the error that `Message.save`'s `full_clean` raises is built from a dict and has no `message`, so the clause raises and the request ends in a 500 | NEW_MESSAGE to an OPEN conversation with `direction` "INBOUND" (or empty `content`, or a message id already stored) | a 400 client error, as the handler's docstring (views.py:22-23) promises for invalid payloads and business-rule violations | medium: depends on Django's `ValidationError`; not executed | Views.StatusCodeAsWritten, exhibited by Lifecycle.BadDirectionIsServerErrorAsWritten | Views.StatusCode, with Lifecycle.EveryFailureIsClientError |

## Left out

- HTTP, JSON and the web framework are not modelled: routing, the admin site, the Swagger/Redoc schema decorators, and `RootApiView.get` (a constant health message). Responses are the abstract `Response`/`ErrorKind`; only their status codes are modelled (`StatusCodeAsWritten`, `StatusCode`), not the error strings.
- The migration (`migrations/0001_initial.py`) is not modelled: it repeats the field definitions of `models.py`.
- `Conversation.__str__` and `Message.__str__` are not modelled: they are display only.
- UUID and ISO-8601 syntax are not modelled: ids and timestamps are opaque strings, and events are taken to carry canonical spellings (one spelling per UUID and per instant). The code parses them: spellings that differ only in letter case, hyphens, braces or a `urn:uuid:` prefix are one primary key there but two keys here, and the read path returns the canonical UUID and a re-rendered datetime rather than the input strings. The validation errors that malformed values would raise are not modelled either.
- Lifecycle.NewConversationDuplicate, Lifecycle.NewConversationCreates and Lifecycle.CreateMessageReadRoundTrip hold only for canonical spellings: two spellings of one UUID are a duplicate in the code but two distinct ids in the model, and the read-back equals the input strings only when they are already canonical.
- JSON values of other types are not modelled: a `data` value that is `null` or a number, or a `data` that is not an object, cannot be written. Every present value is a string.
- The error text of a validation failure is not modelled. The handler reads `e.message`, which a `ValidationError` raised by `full_clean` never carries, so the code answers with a server error (see "## Findings"). The model records that the message was rejected, with its violations, and that nothing changed.
- Concurrency is not modelled. Each event is one atomic step. The save-time re-check in `Message.save` is modelled as a check inside the insert (`SaveMessageRow`). It is not modelled as protection against a close that runs in parallel.
- Wall-clock time is not modelled. `created_at` and `updated_at` read a logical clock that advances by one tick on every conversation write. The code reads the wall clock once per field, so on insert the two values normally differ slightly, and the wall clock need not advance between two saves, nor be monotonic.
- Models.CreateConversationRow and Lifecycle.NewConversationCreates: `created_at == updated_at` right after insert is a property of the logical clock (one reading per write), not of the code, which reads the clock separately for each field.
- Models.SaveConversationRow and Lifecycle.CloseExisting: that `updated_at` strictly increases on every save is a property of the logical clock; the code only promises that `updated_at` is set to the current time on every save.
- Models.SaveConversationRow: requires that the row still exists. When it does not, Django falls back to an INSERT, which is not modelled. The only caller saves an instance it has just fetched. `created_at` is taken from the stored row rather than from the instance; for that caller the two are the same.
- Views.Apply: requires the table invariant `WellFormed`, which every `Store` keeps (`Store.Valid`). The handler itself checks nothing of the kind.
- Models.Store.DeleteConversation: no event deletes a conversation. The cascade is modelled because the foreign key declares it.
- Message order in the detail view is not modelled. The code imposes none, so the view holds a set.

=== FILE: lifecycle.dfy ===
/**
 * What the webhook promises about one event and about any sequence of events:
 * the outcome of each kind of event, the order of the checks, that errors
 * change nothing, and the lifecycle rules (CLOSED is never undone, a closed
 * conversation never gains a message, rows and `created_at` are never lost).
 */
module Lifecycle {
  import opened Wrappers
  import opened Models
  import opened Views

  /** The tables after processing `es` in order, one event at a time. */
  function Run(t: Tables, es: seq<Event>): (r: Tables)
    requires WellFormed(t)
    ensures WellFormed(r)
    decreases |es|
  {
    if es == [] then t else Run(Apply(t, es[0]).tables, es[1..])
  }

  /** Well-formed events of each kind. */
  function NewConversationEvent(ts: Option<Timestamp>, id: Id): Event
  {
    Event(Some(NewConversation), ts, Some(map["id" := id]))
  }

  function NewMessageEvent(ts: Timestamp, id: Id, cid: Id, direction: string, content: string): Event
  {
    Event(Some(NewMessage), Some(ts),
          Some(map["id" := id, "conversation_id" := cid, "direction" := direction, "content" := content]))
  }

  function CloseConversationEvent(ts: Option<Timestamp>, id: Id): Event
  {
    Event(Some(CloseConversation), ts, Some(map["id" := id]))
  }

  // ----- the event type -----

  lemma TypeErrors(t: Tables, e: Event)
    requires WellFormed(t)
    ensures e.kind.None? ==> Apply(t, e) == Step(Err(InvalidPayload), t)
    ensures e.kind.Some? && e.kind.value !in {NewConversation, NewMessage, CloseConversation} ==>
      Apply(t, e) == Step(Err(UnknownEventType), t)
  {
  }

  // ----- NEW_CONVERSATION -----

  lemma NewConversationCreates(t: Tables, e: Event, id: Id)
    requires WellFormed(t)
    requires e.kind == Some(NewConversation) && Field(e.data, "id") == Some(id)
    requires id !in t.conversations
    ensures Apply(t, e).response == Ok
    ensures Apply(t, e).tables.conversations == t.conversations[id := Conversation(id, Open, t.clock, t.clock)]
    ensures Apply(t, e).tables.messages == t.messages
    ensures ReadConversation(Apply(t, e).tables, id) == Some(ConversationView(id, "OPEN", {}))
  {
    var t' := Apply(t, e).tables;
    assert forall k :: k in t'.messages ==> t'.messages[k].conversation != id;
    assert ReadConversation(t', id).value.messages == {};
  }

  lemma NewConversationDuplicate(t: Tables, e: Event, id: Id)
    requires WellFormed(t)
    requires e.kind == Some(NewConversation) && Field(e.data, "id") == Some(id)
    requires id in t.conversations
    ensures Apply(t, e) == Step(Err(DuplicateId), t)
    ensures (set k | k in t.conversations && t.conversations[k].id == id) == {id}
  {
  }

  lemma NewConversationMissingId(t: Tables, e: Event)
    requires WellFormed(t)
    requires e.kind == Some(NewConversation) && Field(e.data, "id").None?
    ensures Apply(t, e) == Step(Err(InvalidPayload), t)
  {
  }

  // ----- NEW_MESSAGE, in the order its checks run -----

  lemma NewMessageMissingConversationId(t: Tables, e: Event)
    requires WellFormed(t)
    requires e.kind == Some(NewMessage) && Field(e.data, "conversation_id").None?
    ensures Apply(t, e) == Step(Err(InvalidPayload), t)
  {
  }

  lemma NewMessageNotFound(t: Tables, e: Event, cid: Id)
    requires WellFormed(t)
    requires e.kind == Some(NewMessage) && Field(e.data, "conversation_id") == Some(cid)
    requires cid !in t.conversations
    ensures Apply(t, e) == Step(Err(NotFound), t)
  {
  }

  lemma NewMessageClosed(t: Tables, e: Event, cid: Id)
    requires WellFormed(t)
    requires e.kind == Some(NewMessage) && Field(e.data, "conversation_id") == Some(cid)
    requires cid in t.conversations && t.conversations[cid].status == Closed
    ensures Apply(t, e) == Step(Err(ConversationClosed), t)
  {
  }

  lemma NewMessageMissingField(t: Tables, e: Event, cid: Id)
    requires WellFormed(t)
    requires e.kind == Some(NewMessage) && Field(e.data, "conversation_id") == Some(cid)
    requires cid in t.conversations && t.conversations[cid].status == Open
    requires Field(e.data, "id").None? || Field(e.data, "direction").None? || Field(e.data, "content").None?
             || e.timestamp.None?
    ensures Apply(t, e) == Step(Err(InvalidPayload), t)
  {
  }

  /** The last check: full validation at save time. */
  lemma NewMessageValidated(t: Tables, e: Event, cid: Id, id: Id, direction: string, content: string)
    requires WellFormed(t)
    requires e.kind == Some(NewMessage) && Field(e.data, "conversation_id") == Some(cid)
    requires cid in t.conversations && t.conversations[cid].status == Open
    requires Field(e.data, "id") == Some(id) && Field(e.data, "direction") == Some(direction)
    requires Field(e.data, "content") == Some(content) && e.timestamp.Some?
    ensures Apply(t, e).response == Ok <==> ParseDirection(direction).Some? && content != "" && id !in t.messages
    ensures ParseDirection(direction).None? ==>
      Apply(t, e).response.Err? && Apply(t, e).response.kind.Rejected? &&
      DirectionNotAChoice in Apply(t, e).response.kind.violations
    ensures id in t.messages ==>
      Apply(t, e).response.Err? && Apply(t, e).response.kind.Rejected? &&
      MessageIdTaken in Apply(t, e).response.kind.violations
  {
  }

  /** A successful NEW_MESSAGE adds exactly one message, built from `data` and the event's own timestamp. */
  lemma NewMessageAppends(t: Tables, e: Event, cid: Id, id: Id, d: Direction, content: string)
    requires WellFormed(t)
    requires e.kind == Some(NewMessage) && Field(e.data, "conversation_id") == Some(cid)
    requires cid in t.conversations && t.conversations[cid].status == Open
    requires Field(e.data, "id") == Some(id) && Field(e.data, "direction") == Some(DirectionName(d))
    requires Field(e.data, "content") == Some(content) && content != "" && e.timestamp.Some?
    requires id !in t.messages
    ensures Apply(t, e).response == Ok
    ensures Apply(t, e).tables ==
      t.(messages := t.messages[id := Message(id, cid, d, content, e.timestamp.value)])
    ensures ReadConversation(Apply(t, e).tables, cid).value.messages ==
      ReadConversation(t, cid).value.messages + {MessageView(id, DirectionName(d), content, e.timestamp.value)}
  {
  }

  // ----- CLOSE_CONVERSATION -----

  lemma CloseMissingId(t: Tables, e: Event)
    requires WellFormed(t)
    requires e.kind == Some(CloseConversation) && Field(e.data, "id").None?
    ensures Apply(t, e) == Step(Err(InvalidPayload), t)
  {
  }

  lemma CloseNotFound(t: Tables, e: Event, id: Id)
    requires WellFormed(t)
    requires e.kind == Some(CloseConversation) && Field(e.data, "id") == Some(id)
    requires id !in t.conversations
    ensures Apply(t, e) == Step(Err(NotFound), t)
  {
  }

  /**
   * Closing an existing conversation always succeeds, whatever its status:
   * the status becomes CLOSED, `updated_at` is refreshed, and nothing else moves.
   */
  lemma CloseExisting(t: Tables, e: Event, id: Id)
    requires WellFormed(t)
    requires e.kind == Some(CloseConversation) && Field(e.data, "id") == Some(id)
    requires id in t.conversations
    ensures Apply(t, e).response == Ok
    ensures Apply(t, e).tables.conversations ==
      t.conversations[id := t.conversations[id].(status := Closed, updatedAt := t.clock)]
    ensures t.conversations[id].updatedAt < Apply(t, e).tables.conversations[id].updatedAt
    ensures Apply(t, e).tables.messages == t.messages
  {
  }

  /** Closing twice: both succeed, the status stays CLOSED and the messages are untouched. */
  lemma CloseIdempotent(t: Tables, e: Event, id: Id)
    requires WellFormed(t)
    requires e.kind == Some(CloseConversation) && Field(e.data, "id") == Some(id)
    requires id in t.conversations
    ensures var once := Apply(t, e); var twice := Apply(once.tables, e);
      && once.response == Ok && twice.response == Ok
      && twice.tables.conversations[id].status == Closed
      && twice.tables.conversations[id].createdAt == t.conversations[id].createdAt
      && twice.tables.conversations.Keys == t.conversations.Keys
      && twice.tables.messages == t.messages
  {
  }

  // ----- sequences of events -----

  /** Conversations are never removed, keep `created_at`, and once CLOSED stay CLOSED. */
  lemma {:induction false} RunNeverReopens(t: Tables, es: seq<Event>, k: Id)
    requires WellFormed(t)
    requires k in t.conversations
    ensures k in Run(t, es).conversations
    ensures Run(t, es).conversations[k].createdAt == t.conversations[k].createdAt
    ensures t.conversations[k].status == Closed ==> Run(t, es).conversations[k].status == Closed
    decreases |es|
  {
    if es != [] {
      RunNeverReopens(Apply(t, es[0]).tables, es[1..], k);
    }
  }

  /** Stored messages are never removed or altered. */
  lemma {:induction false} RunKeepsMessages(t: Tables, es: seq<Event>, k: Id)
    requires WellFormed(t)
    requires k in t.messages
    ensures k in Run(t, es).messages && Run(t, es).messages[k] == t.messages[k]
    decreases |es|
  {
    if es != [] {
      RunKeepsMessages(Apply(t, es[0]).tables, es[1..], k);
    }
  }

  /**
   * However many events follow, a conversation that is CLOSED gains no
   * message: every message it owns afterwards was already stored.
   */
  lemma {:induction false} RunClosedGetsNoMessages(t: Tables, es: seq<Event>, c: Id, k: Id)
    requires WellFormed(t)
    requires c in t.conversations && t.conversations[c].status == Closed
    ensures k in Run(t, es).messages && Run(t, es).messages[k].conversation == c ==>
      k in t.messages && Run(t, es).messages[k] == t.messages[k]
    decreases |es|
  {
    if es != [] {
      var t1 := Apply(t, es[0]).tables;
      RunClosedGetsNoMessages(t1, es[1..], c, k);
      assert Run(t, es) == Run(t1, es[1..]);
    }
  }

  // ----- status codes -----

  /**
   * As written, a NEW_MESSAGE whose direction is not a choice, sent to an OPEN
   * conversation, ends in a server error; the intended mapping makes it a
   * client error. Either way nothing is written.
   */
  lemma BadDirectionIsServerErrorAsWritten(t: Tables, ts: Timestamp, id: Id, cid: Id, content: string)
    requires WellFormed(t)
    requires cid in t.conversations && t.conversations[cid].status == Open
    ensures var s := Apply(t, NewMessageEvent(ts, id, cid, "INBOUND", content));
      && s.tables == t
      && StatusCodeAsWritten(s.response) == 500
      && StatusCode(s.response) == 400
  {
    NewMessageValidated(t, NewMessageEvent(ts, id, cid, "INBOUND", content), cid, id, "INBOUND", content);
  }

  /**
   * With the intended mapping every event is answered with 200, 400 or 404,
   * and only a 200 comes with a change to the tables.
   */
  lemma EveryFailureIsClientError(t: Tables, e: Event)
    requires WellFormed(t)
    ensures var s := Apply(t, e);
      && StatusCode(s.response) in {200, 400, 404}
      && (StatusCode(s.response) != 200 ==> s.tables == t)
  {
  }

  // ----- scenarios -----

  /** Create a conversation, add one message, read it back. */
  lemma CreateMessageReadRoundTrip(t: Tables, ts0: Option<Timestamp>, a: Id, ts: Timestamp, b: Id,
                                   direction: string, content: string)
    requires WellFormed(t)
    requires a !in t.conversations && b !in t.messages
    requires ParseDirection(direction).Some? && content != ""
    ensures var s1 := Apply(t, NewConversationEvent(ts0, a));
      var s2 := Apply(s1.tables, NewMessageEvent(ts, b, a, direction, content));
      && s1.response == Ok && s2.response == Ok
      && ReadConversation(s2.tables, a) == Some(ConversationView(a, "OPEN", {MessageView(b, direction, content, ts)}))
  {
    var d := ParseDirection(direction).value;
    var e1 := NewConversationEvent(ts0, a);
    var e2 := NewMessageEvent(ts, b, a, direction, content);
    NewConversationCreates(t, e1, a);
    var t1 := Apply(t, e1).tables;
    NewMessageAppends(t1, e2, a, b, d, content);
    var t2 := Apply(t1, e2).tables;
    var read := ReadConversation(t2, a);
    assert read.value.messages == {MessageView(b, direction, content, ts)};
  }

  /** Create, close, then try to add a message: refused, and the conversation stays empty. */
  lemma CloseThenMessageRejected(t: Tables, ts0: Option<Timestamp>, a: Id, ts: Timestamp, c: Id,
                                 direction: string, content: string)
    requires WellFormed(t)
    requires a !in t.conversations
    ensures var s1 := Apply(t, NewConversationEvent(ts0, a));
      var s2 := Apply(s1.tables, CloseConversationEvent(ts0, a));
      var s3 := Apply(s2.tables, NewMessageEvent(ts, c, a, direction, content));
      && s3.response == Err(ConversationClosed)
      && ReadConversation(s3.tables, a) == Some(ConversationView(a, "CLOSED", {}))
  {
    var e1 := NewConversationEvent(ts0, a);
    NewConversationCreates(t, e1, a);
    var t1 := Apply(t, e1).tables;
    CloseExisting(t1, CloseConversationEvent(ts0, a), a);
    var t2 := Apply(t1, CloseConversationEvent(ts0, a)).tables;
    assert ReadConversation(t2, a).value.messages == ReadConversation(t1, a).value.messages;
  }

  /** Creating the same conversation twice: the second is a duplicate and one row remains. */
  lemma DuplicateCreateKeepsOne(t: Tables, ts0: Option<Timestamp>, ts1: Option<Timestamp>, a: Id)
    requires WellFormed(t)
    ensures var s1 := Apply(t, NewConversationEvent(ts0, a));
      var s2 := Apply(s1.tables, NewConversationEvent(ts1, a));
      && s2 == Step(Err(DuplicateId), s1.tables)
      && (set k | k in s2.tables.conversations && s2.tables.conversations[k].id == a) == {a}
  {
    var t1 := Apply(t, NewConversationEvent(ts0, a)).tables;
    NewConversationDuplicate(t1, NewConversationEvent(ts1, a), a);
  }
}

=== FILE: models.dfy ===
/**
 * The two tables of the conversation store: conversations and messages.
 * Values (Status, Direction, records, a snapshot of both tables) are datatypes;
 * every write a table supports is a pure function on a snapshot, and the
 * `Store` class holds the live tables and performs the same writes in place.
 */
module Models {
  import opened Wrappers

  /** Caller-supplied UUIDs and ISO-8601 instants; the model never inspects them. */
  type Id = string
  type Timestamp = string

  datatype Status = Open | Closed

  /** The value `status` takes when a conversation is created without one. */
  const DefaultStatus: Status := Open

  function StatusName(s: Status): string
  {
    match s
    case Open => "OPEN"
    case Closed => "CLOSED"
  }

  datatype Direction = Sent | Received

  function DirectionName(d: Direction): string
  {
    match d
    case Sent => "SENT"
    case Received => "RECEIVED"
  }

  /** The choices check that full validation applies to a raw `direction` value. */
  function ParseDirection(s: string): (r: Option<Direction>)
    ensures forall d: Direction :: r == Some(d) <==> DirectionName(d) == s
  {
    if s == "SENT" then Some(Sent)
    else if s == "RECEIVED" then Some(Received)
    else None
  }

  /** `created_at` and `updated_at` are readings of the store's logical clock. */
  datatype Conversation = Conversation(id: Id, status: Status, createdAt: nat, updatedAt: nat)

  datatype Message = Message(id: Id, conversation: Id, direction: Direction, content: string, timestamp: Timestamp)

  /**
   * A snapshot of both tables, keyed by primary key, and the logical clock that
   * the automatic timestamp fields read.
   */
  datatype Tables = Tables(conversations: map<Id, Conversation>, messages: map<Id, Message>, clock: nat)

  const Empty: Tables := Tables(map[], map[], 0)

  /**
   * The table invariants: every row sits under its own primary key (so ids are
   * unique per table), every message's foreign key names an existing
   * conversation, and a conversation's timestamps are ordered and in the past.
   */
  predicate WellFormed(t: Tables)
  {
    && (forall k :: k in t.conversations ==>
          t.conversations[k].id == k && t.conversations[k].createdAt <= t.conversations[k].updatedAt < t.clock)
    && (forall k :: k in t.messages ==>
          t.messages[k].id == k && t.messages[k].conversation in t.conversations)
  }

  /** Why full validation refuses a message. */
  datatype Violation =
    | DirectionNotAChoice  // `direction` is neither SENT nor RECEIVED
    | ContentBlank         // `content` is empty and the field does not allow blank
    | ConversationMissing  // the foreign key names no stored conversation
    | ConversationIsClosed // `clean`: the owning conversation is CLOSED
    | MessageIdTaken       // the primary key is already used by another message

  /** The two ways the database layer refuses a write. */
  datatype DbError = IntegrityError | ValidationError(violations: set<Violation>)

  /**
   * `Conversation.objects.create(id=...)`: insert a row with the default status;
   * both automatic timestamps read the clock. A taken primary key is an
   * integrity error and writes nothing.
   */
  function CreateConversationRow(t: Tables, id: Id): (r: Result<Tables, DbError>)
    ensures r.Failure? <==> id in t.conversations
    ensures r.Failure? ==> r.error == IntegrityError
    ensures r.Success? ==>
      && r.value.conversations.Keys == t.conversations.Keys + {id}
      && (forall k :: k in t.conversations ==> r.value.conversations[k] == t.conversations[k])
      && r.value.conversations[id].id == id
      && r.value.conversations[id].status == Open
      && r.value.conversations[id].createdAt == r.value.conversations[id].updatedAt
      && r.value.messages == t.messages
      && t.clock < r.value.clock
    ensures r.Success? && WellFormed(t) ==> WellFormed(r.value)
  {
    if id in t.conversations then Failure(IntegrityError)
    else
      Success(t.(conversations := t.conversations[id := Conversation(id, DefaultStatus, t.clock, t.clock)],
                 clock := t.clock + 1))
  }

  /**
   * `Message.full_clean()`: field checks, the model's own `clean` (which reads
   * the owning conversation instance the caller holds) and the uniqueness
   * check. All violations are collected, not just the first.
   */
  function FullClean(t: Tables, id: Id, owner: Conversation, direction: string, content: string): (v: set<Violation>)
    ensures v == {} <==>
      && owner.id in t.conversations
      && owner.status == Open
      && ParseDirection(direction).Some?
      && content != ""
      && id !in t.messages
    ensures DirectionNotAChoice in v <==> ParseDirection(direction).None?
    ensures ContentBlank in v <==> content == ""
    ensures ConversationMissing in v <==> owner.id !in t.conversations
    ensures ConversationIsClosed in v <==> owner.status == Closed
    ensures MessageIdTaken in v <==> id in t.messages
  {
    (if ParseDirection(direction).None? then {DirectionNotAChoice} else {})
    + (if content == "" then {ContentBlank} else {})
    + (if owner.id !in t.conversations then {ConversationMissing} else {})
    + (if owner.status == Closed then {ConversationIsClosed} else {})
    + (if id in t.messages then {MessageIdTaken} else {})
  }

  /**
   * `Message.save()`: validate first, then insert. The write is refused whenever
   * the owner is CLOSED, whatever the caller checked before.
   */
  function SaveMessageRow(t: Tables, id: Id, owner: Conversation, direction: string, content: string,
                          timestamp: Timestamp): (r: Result<Tables, DbError>)
    ensures r.Success? <==>
      && owner.id in t.conversations
      && owner.status == Open
      && ParseDirection(direction).Some?
      && content != ""
      && id !in t.messages
    ensures r.Failure? ==> r.error.ValidationError? && r.error.violations != {}
    ensures owner.status == Closed ==> r.Failure? && ConversationIsClosed in r.error.violations
    ensures r.Success? ==>
      && r.value.conversations == t.conversations
      && r.value.clock == t.clock
      && r.value.messages.Keys == t.messages.Keys + {id}
      && (forall k :: k in t.messages ==> r.value.messages[k] == t.messages[k])
      && r.value.messages[id] == Message(id, owner.id, ParseDirection(direction).value, content, timestamp)
    ensures r.Success? && WellFormed(t) ==> WellFormed(r.value)
  {
    var violations := FullClean(t, id, owner, direction, content);
    if violations != {} then Failure(ValidationError(violations))
    else
      var m := Message(id, owner.id, ParseDirection(direction).value, content, timestamp);
      Success(t.(messages := t.messages[id := m]))
  }

  /**
   * `conversation.save()` on a conversation that is already stored: write the
   * instance's fields back; `updated_at` reads the clock, `created_at` keeps
   * the value set when the row was inserted.
   */
  function SaveConversationRow(t: Tables, c: Conversation): (r: Tables)
    requires c.id in t.conversations
    ensures r.conversations.Keys == t.conversations.Keys
    ensures forall k :: k in t.conversations && k != c.id ==> r.conversations[k] == t.conversations[k]
    ensures r.conversations[c.id].status == c.status
    ensures r.conversations[c.id].createdAt == t.conversations[c.id].createdAt
    ensures WellFormed(t) ==> t.conversations[c.id].updatedAt < r.conversations[c.id].updatedAt
    ensures r.messages == t.messages
    ensures WellFormed(t) ==> WellFormed(r)
  {
    var row := c.(createdAt := t.conversations[c.id].createdAt, updatedAt := t.clock);
    t.(conversations := t.conversations[c.id := row], clock := t.clock + 1)
  }

  /**
   * Deleting a conversation; the foreign key's cascade deletes exactly the
   * messages that belong to it.
   */
  function DeleteConversationRow(t: Tables, id: Id): (r: Tables)
    ensures r.conversations.Keys == t.conversations.Keys - {id}
    ensures forall k :: k in r.conversations ==> r.conversations[k] == t.conversations[k]
    ensures forall k :: k in t.messages ==> (k in r.messages <==> t.messages[k].conversation != id)
    ensures forall k :: k in r.messages ==> k in t.messages && r.messages[k] == t.messages[k]
    ensures WellFormed(t) ==> WellFormed(r)
  {
    Tables(t.conversations - {id},
           map k | k in t.messages && t.messages[k].conversation != id :: t.messages[k],
           t.clock)
  }

  /** The live tables, updated in place by each write. */
  class Store {
    var conversations: map<Id, Conversation>
    var messages: map<Id, Message>
    var clock: nat

    function Snapshot(): Tables
      reads this
    {
      Tables(conversations, messages, clock)
    }

    predicate Valid()
      reads this
    {
      WellFormed(Snapshot())
    }

    constructor ()
      ensures Valid() && Snapshot() == Empty
    {
      conversations, messages, clock := map[], map[], 0;
    }

    /** The lookup `get_object_or_404` performs; a miss is reported as None. */
    method GetConversation(id: Id) returns (c: Option<Conversation>)
      requires Valid()
      ensures c.Some? <==> id in conversations
      ensures c.Some? ==> c.value == conversations[id] && c.value.id == id
    {
      if id in conversations {
        c := Some(conversations[id]);
      } else {
        c := None;
      }
    }

    method CreateConversation(id: Id) returns (err: Option<DbError>)
      requires Valid()
      modifies this
      ensures Valid()
      ensures CreateConversationRow(old(Snapshot()), id) ==
              if err.None? then Success(Snapshot()) else Failure(err.value)
      ensures err.Some? ==> Snapshot() == old(Snapshot())
    {
      if id in conversations {
        return Some(IntegrityError);
      }
      conversations := conversations[id := Conversation(id, DefaultStatus, clock, clock)];
      clock := clock + 1;
      err := None;
    }

    method SaveMessage(id: Id, owner: Conversation, direction: string, content: string, timestamp: Timestamp)
      returns (err: Option<DbError>)
      requires Valid()
      modifies this
      ensures Valid()
      ensures SaveMessageRow(old(Snapshot()), id, owner, direction, content, timestamp) ==
              if err.None? then Success(Snapshot()) else Failure(err.value)
      ensures err.Some? ==> Snapshot() == old(Snapshot())
    {
      var violations := FullClean(Snapshot(), id, owner, direction, content);
      if violations != {} {
        return Some(ValidationError(violations));
      }
      assert DirectionNotAChoice !in violations;
      messages := messages[id := Message(id, owner.id, ParseDirection(direction).value, content, timestamp)];
      err := None;
    }

    method SaveConversation(c: Conversation)
      requires Valid()
      requires c.id in conversations
      modifies this
      ensures Valid()
      ensures Snapshot() == SaveConversationRow(old(Snapshot()), c)
    {
      conversations := conversations[c.id := c.(createdAt := conversations[c.id].createdAt, updatedAt := clock)];
      clock := clock + 1;
    }

    method DeleteConversation(id: Id)
      requires Valid()
      modifies this
      ensures Valid()
      ensures Snapshot() == DeleteConversationRow(old(Snapshot()), id)
    {
      messages := map k | k in messages && messages[k].conversation != id :: messages[k];
      conversations := conversations - {id};
    }
  }
}

=== FILE: views.dfy ===
/**
 * The webhook endpoint and the conversation detail endpoint. `Apply` is the
 * transition one webhook event makes on the tables; `Post` performs it on a
 * live `Store` and is proved to agree with it. `ReadConversation` is the read
 * projection.
 */
module Views {
  import opened Wrappers
  import opened Models

  const NewConversation: string := "NEW_CONVERSATION"
  const NewMessage: string := "NEW_MESSAGE"
  const CloseConversation: string := "CLOSE_CONVERSATION"

  /**
   * The JSON body of a webhook call. Each top-level key may be absent, and so
   * may each key of `data`; an absent key is how a malformed payload shows.
   */
  datatype Event = Event(kind: Option<string>, timestamp: Option<Timestamp>, data: Option<map<string, string>>)

  /** The distinct ways a webhook call fails. */
  datatype ErrorKind =
    | InvalidPayload                       // a key the handler reads is missing
    | UnknownEventType                     // `type` is none of the three event names
    | NotFound                             // the named conversation does not exist (a 404, not a 400)
    | ConversationClosed                   // the handler's own check that the conversation is OPEN
    | DuplicateId                          // the database refused a taken primary key
    | Rejected(violations: set<Violation>) // full validation refused the message (a 500 as written, see StatusCodeAsWritten)

  datatype Response = Ok | Err(kind: ErrorKind)

  /** The response an event produces and the tables it leaves behind. */
  datatype Step = Step(response: Response, tables: Tables)

  /** `event['data'][key]`: absent when either `data` or the key is. */
  function Field(data: Option<map<string, string>>, key: string): Option<string>
  {
    if data.Some? && key in data.value then Some(data.value[key]) else None
  }

  /** The handler's `except` clauses for errors raised by the database layer. */
  function ErrorOf(e: DbError): (k: ErrorKind)
    ensures k == DuplicateId <==> e == IntegrityError
    ensures k.Rejected? <==> e.ValidationError?
    ensures k.Rejected? ==> k.violations == e.violations
  {
    match e
    case IntegrityError => DuplicateId
    case ValidationError(v) => Rejected(v)
  }

  /**
   * The status code a response goes out with, as the handler is written. A
   * full-validation error is built from a dict of field errors and has no
   * `message` attribute, so the `except ValidationError` clause fails while
   * reading `e.message` and the request ends in a server error. Validation
   * runs before the insert, so nothing has been written by then.
   */
  function StatusCodeAsWritten(r: Response): (code: int)
    ensures code == 200 <==> r.Ok?
    ensures code == 404 <==> r == Err(NotFound)
    ensures code == 500 <==> r.Err? && r.kind.Rejected?
    ensures code == 400 <==> r.Err? && r.kind != NotFound && !r.kind.Rejected?
  {
    match r
    case Ok => 200
    case Err(NotFound) => 404
    case Err(Rejected(_)) => 500
    case Err(_) => 400
  }

  /**
   * The status code the handler's documentation promises: success, a 404 for
   * a missing conversation, and a client error for every other failure.
   */
  function StatusCode(r: Response): (code: int)
    ensures code == 200 <==> r.Ok?
    ensures code == 404 <==> r == Err(NotFound)
    ensures code == 400 <==> r.Err? && r.kind != NotFound
  {
    if r.Ok? then 200 else if r.kind == NotFound then 404 else 400
  }

  /**
   * The transition one webhook event makes. Every check comes before the
   * single write; a failing event writes nothing. Events never delete
   * anything, never reopen a conversation and never touch `created_at`, and a
   * message is only ever admitted to a conversation that was OPEN.
   */
  function Apply(t: Tables, e: Event): (s: Step)
    requires WellFormed(t)
    ensures s.response.Err? ==> s.tables == t
    ensures WellFormed(s.tables)
    ensures t.conversations.Keys <= s.tables.conversations.Keys
    ensures forall k :: k in t.conversations ==>
      && s.tables.conversations[k].createdAt == t.conversations[k].createdAt
      && (t.conversations[k].status == Closed ==> s.tables.conversations[k].status == Closed)
    ensures t.messages.Keys <= s.tables.messages.Keys
    ensures forall k :: k in t.messages ==> s.tables.messages[k] == t.messages[k]
    ensures forall k :: k in s.tables.messages && k !in t.messages ==>
      var owner := s.tables.messages[k].conversation;
      owner in t.conversations && t.conversations[owner].status == Open
  {
    if e.kind.None? then Step(Err(InvalidPayload), t)
    else if e.kind.value == NewConversation then
      match Field(e.data, "id")
      case None => Step(Err(InvalidPayload), t)
      case Some(id) =>
        match CreateConversationRow(t, id)
        case Failure(err) => Step(Err(ErrorOf(err)), t)
        case Success(t') => Step(Ok, t')
    else if e.kind.value == NewMessage then
      match Field(e.data, "conversation_id")
      case None => Step(Err(InvalidPayload), t)
      case Some(cid) =>
        if cid !in t.conversations then Step(Err(NotFound), t)
        else if t.conversations[cid].status == Closed then Step(Err(ConversationClosed), t)
        else if || Field(e.data, "id").None? || Field(e.data, "direction").None?
                || Field(e.data, "content").None? || e.timestamp.None? then
          Step(Err(InvalidPayload), t)
        else
          match SaveMessageRow(t, Field(e.data, "id").value, t.conversations[cid], Field(e.data, "direction").value,
                               Field(e.data, "content").value, e.timestamp.value)
          case Failure(err) => Step(Err(ErrorOf(err)), t)
          case Success(t') => Step(Ok, t')
    else if e.kind.value == CloseConversation then
      match Field(e.data, "id")
      case None => Step(Err(InvalidPayload), t)
      case Some(id) =>
        if id !in t.conversations then Step(Err(NotFound), t)
        else Step(Ok, SaveConversationRow(t, t.conversations[id].(status := Closed)))
    else Step(Err(UnknownEventType), t)
  }

  /** `WebhookView.post`: process one event against the live tables. */
  method Post(db: Store, e: Event) returns (r: Response)
    requires db.Valid()
    modifies db
    ensures db.Valid()
    ensures Step(r, db.Snapshot()) == Apply(old(db.Snapshot()), e)
  {
    if e.kind.None? {
      return Err(InvalidPayload);
    }
    var kind := e.kind.value;
    if kind == NewConversation {
      var id := Field(e.data, "id");
      if id.None? {
        return Err(InvalidPayload);
      }
      var err := db.CreateConversation(id.value);
      if err.Some? {
        return Err(ErrorOf(err.value));
      }
    } else if kind == NewMessage {
      var cid := Field(e.data, "conversation_id");
      if cid.None? {
        return Err(InvalidPayload);
      }
      var conversation := db.GetConversation(cid.value);
      if conversation.None? {
        return Err(NotFound);
      }
      if conversation.value.status == Closed {
        return Err(ConversationClosed);
      }
      var id, direction, content := Field(e.data, "id"), Field(e.data, "direction"), Field(e.data, "content");
      if id.None? || direction.None? || content.None? || e.timestamp.None? {
        return Err(InvalidPayload);
      }
      var err := db.SaveMessage(id.value, conversation.value, direction.value, content.value, e.timestamp.value);
      if err.Some? {
        return Err(ErrorOf(err.value));
      }
    } else if kind == CloseConversation {
      var id := Field(e.data, "id");
      if id.None? {
        return Err(InvalidPayload);
      }
      var conversation := db.GetConversation(id.value);
      if conversation.None? {
        return Err(NotFound);
      }
      db.SaveConversation(conversation.value.(status := Closed));
    } else {
      return Err(UnknownEventType);
    }
    return Ok;
  }

  /** One row of the detail view's message list; `direction` as stored ("SENT" or "RECEIVED"). */
  datatype MessageView = MessageView(id: Id, direction: string, content: string, timestamp: Timestamp)

  /**
   * The detail view's body: the conversation's id, its status as stored
   * ("OPEN" or "CLOSED") and its messages, in no particular order.
   */
  datatype ConversationView = ConversationView(id: Id, status: string, messages: set<MessageView>)

  function ViewOf(m: Message): MessageView
  {
    MessageView(m.id, DirectionName(m.direction), m.content, m.timestamp)
  }

  /**
   * `ConversationDetailView.get`: the conversation's id and current status and
   * exactly the messages whose foreign key is that id; None is the 404.
   */
  function ReadConversation(t: Tables, id: Id): (r: Option<ConversationView>)
    ensures r.Some? <==> id in t.conversations
    ensures r.Some? ==> r.value.id == id && r.value.status == StatusName(t.conversations[id].status)
    ensures r.Some? ==> forall k :: k in t.messages && t.messages[k].conversation == id ==>
      ViewOf(t.messages[k]) in r.value.messages
    ensures r.Some? && WellFormed(t) ==> forall v :: v in r.value.messages ==>
      v.id in t.messages && t.messages[v.id].conversation == id && ViewOf(t.messages[v.id]) == v
  {
    if id !in t.conversations then None
    else
      var mine := set k | k in t.messages && t.messages[k].conversation == id :: ViewOf(t.messages[k]);
      Some(ConversationView(id, StatusName(t.conversations[id].status), mine))
  }
}

=== FILE: wrappers.dfy ===
/** Option and Result, used for lookups that may miss and writes that may be refused. */
module Wrappers {

  datatype Option<+T> = None | Some(value: T)

  datatype Result<+T, +E> = Success(value: T) | Failure(error: E)
}
